=== FILE: README.md ===
# Trivia party engine — a Dafny model

This project models the game engine of a two-player real-time trivia
server. A player creates a *party* and gets a short code. A second player
joins with that code. When both are ready, a countdown starts the game.
Each question is broadcast with a 15-second limit. A correct answer scores
10 points plus a bonus that shrinks with every second taken. The round
resolves either when everyone has answered or when the question timer
fires. After the last question, the game announces the final standings and
a winner or a tie.

What is modelled:

- The `Game` class: `players`, `scores`, `answers`, the question index, the
  `waiting`/`playing`/`finished` state, scoring and the winner rule.
- The process-wide `parties` and `players` maps, driven by the
  `createParty`, `joinParty`, `playerReady`, `submitAnswer` and `disconnect`
  handlers.

Every handler and every timer callback is a pure function. It returns the
new state and the messages it emits, in emission order, each tagged with
its recipient: one socket, or a party's room.

Layout:

- `base.dfy` (module `Base`): optional values, identifier types, ASCII case
  mapping, and the shape of a generated party code.
- `events.dfy` (module `Events`): the emitted messages.
- `scoring.dfy` (module `Scoring`): the speed-bonus rule and the
  `endGame` winner loop, each with an independent reference reading.
- `games.dfy` (module `Games`): the `Game` object and its transitions.
- `parties.dfy` (module `Parties`): the registry, its handlers, timer
  firings as transitions, and the invariant over any run.
- `witnesses.dfy` (module `Witnesses`): worked examples, and behaviours
  the code has that a reader might not expect.

Modelling choices:

- **Time.** Time is an explicit `now` parameter. Each timer callback is its
  own transition:
  - `ProcessAnswers` / `QuestionTimeout` for the 15 s question timer;
  - `AdvanceAfterResult` / `ResultDelayDone` for the 3 s result delay;
  - `StartGame` / `CountdownDone` for the 3 s start countdown.

  The model does not track which timers are pending. Any timer transition
  may be applied at any time, which over-approximates the source.
- **Map order.** The source's `Map`s iterate in insertion order. `players`
  is a sequence in that order. `scores` is a map keyed by exactly the
  players, and `endGame` visits it in player order. The two orders agree:
  `addPlayer` appends to both maps, `removePlayer` deletes from both, and
  `startGame` rebuilds `scores` in player order.
- **Reachable states.** `Games.Valid` and `Parties.Invariant` describe the
  reachable states. Every transition establishes or preserves them.
  `Parties.Run` proves this for any sequence of handler calls and timer
  firings. Transitions that read a score, a player or the current question
  require these predicates. The source reads those values without checks
  and relies on the same facts.
- **Floor division.** Dafny's `/` by a positive divisor rounds toward
  negative infinity, like `Math.floor` applied to the quotient. So the speed
  bonus below matches the source for negative elapsed times too.

## Model

| member | source | states |
|---|---|---|
| `Scoring.SpeedPoints` | server.js:175-178 | A correct answer earns at least 10 points. For an elapsed time of 0 ms or more it earns at most 25. It earns exactly 10 iff at least 15 000 ms have elapsed, and exactly 25 iff the answer came within the first second. |
| `Scoring.SpeedPointsPerSecond` | server.js:176 | An answer given during whole second `s` earns `10 + max(0, 15 - s)`. This is the floored-seconds reading of the bonus. |
| `Scoring.SpeedPointsNonIncreasing` | server.js:176-177 | Answering later never earns more points. |
| `Scoring.TopScore` | server.js:224-232 | The highest score is at least every entry's score, and some entry holds it. |
| `Scoring.ScanScoresComputesTop` | server.js:219-232 | When no score is negative, the winner loop ends with `highestScore` at the top score. `tie` is set iff the top score is held more than once. `winner` is the first entry holding it. With no entries, the loop keeps its initial values. |
| `Scoring.WinnerRule` | server.js:219-232 | When no score is negative, the loop flags a tie iff two entries share the highest score. Otherwise it names the one entry whose score is strictly above every other. With no entries there is neither a winner nor a tie. |
| `Base.PartyCodeCaseRoundTrip` | server.js:257 | A generated code (eight upper-case hex digits) equals its own upper-case form. Upper-casing its lower-case spelling also gives it back. |
| `Games.NewGame` | server.js:92-101 | A new game is waiting at index 0 with no players, scores or answers, and satisfies the game invariant. |
| `Games.AnswersBounded` | server.js:182 | In every reachable game, the answers never outnumber the players. |
| `Games.AddPlayer` | server.js:103-111 | The player is recorded as not ready with score 0. A new id is appended, making one more player. A known id keeps its place, and its record is replaced by a fresh one under the new name, not ready; every other record is unchanged. Nothing else changes, there is no capacity or state check, and the game invariant is kept. |
| `Games.RemovePlayer` | server.js:113-117 | The player's record, score and answer go. An absent id leaves the players as they were. A present id has exactly its one record cut out, and the other players keep their order, which is the order of later result rows. Nothing else changes, the game invariant is kept, and no round is resolved. |
| `Games.WithoutCutsOne` | server.js:114 | Deleting a present id from a list without repeated ids cuts out its first (and only) record and keeps the rest in order. |
| `Games.WithoutAbsent` | server.js:114 | Deleting an id that no player holds leaves the list unchanged. |
| `Games.MarkReady` | server.js:315-318 | Only the matching player becomes ready. Everything else, including the player order, is unchanged. An unknown id changes nothing. |
| `Games.ReadyAfterMarking` | server.js:119-121 | `isReady` holds after a player's ready signal iff the game has at least two players and every other player was already ready. |
| `Games.Standings` | server.js:234-241 | The final results have one row per player, in player order, each with that player's name and score. |
| `Games.EndGame` | server.js:216-249 | The state becomes finished and a single `gameEnd` lists every player. `tie` is set iff two players share the highest score. Otherwise the winner and winner name are those of the one player above all others. With a tie, or with no players, both are null. |
| `Games.NextQuestion` | server.js:137-160 | Once the index reaches the bank length, the game ends. Otherwise answers are cleared, the start time is recorded, and one `question` is sent with the 1-based index, the bank length and the 15 000 ms limit. The index and scores are unchanged. |
| `Games.StartGame` | server.js:123-135 | From any state, with the party id and players kept: the index becomes 0, the score keys become exactly the current players, each at 0, and the answers are cleared. With a non-empty bank the game is playing, the round starts at `now`, and question 1 of `|bank|` is sent. With an empty bank it finishes at once. |
| `Games.ProcessAnswers` | server.js:188-207 | The game is unchanged and one `questionResult` is sent, with the 1-based index and the correct option. It has one row per current player, in order, with name and current score (`Games.Reports`). The answer is present iff the player answered, and it is the option that player recorded, with the correctness judged when they answered. A row is correct iff its answer is the correct option. |
| `Games.AdvanceAfterResult` | server.js:209-213 | The index rises by exactly one. If questions remain, the next one, numbered index + 2, is sent; its answers are cleared, its start time is `now`, and nothing else changes. Otherwise the step is exactly `EndGame` of the game at the new index: it finishes, and the room hears the tie rule and the standings. |
| `Games.RecordAnswer` | server.js:165-179 | Only this player's answer and score change. The answer is judged against the current question and timed from its start. The score rises by `SpeedPoints` exactly when the answer is correct, so it never decreases. |
| `Games.SubmitAnswer` | server.js:162-186 | Outside `playing`, nothing changes. Otherwise the answer is recorded, and the round's result is emitted at once iff the answers now number the players. Players, question index and state stay as they were. The answerer's score never drops, and no other player's score moves. |
| `Games.TimeOutRemainingRounds` | server.js:137-213 | If nobody answers, a playing game finishes at index = bank length. It emits exactly two messages per remaining question, the last being `gameEnd`. |
| `Parties.EmptyRegistryInvariant` | server.js:23-24 | The empty registry satisfies the registry invariant. |
| `Parties.CreateParty` | server.js:256-273 | Creates a waiting party whose only player is the creator at score 0. The back-reference points to it and `partyCreated` goes to the creator. Every other party is untouched, and no party exceeds two players. |
| `Parties.CreatePartyKeepsInvariant` | server.js:256-273 | With a fresh generated code, creating a party keeps the registry invariant. |
| `Parties.JoinParty` | server.js:275-306 | The code is upper-cased. An unknown code gives "Party not found" and a party of two gives "Party is full", and neither changes the registry. Otherwise only that party gains the joiner, the back-reference is recorded, and the room hears the new count. No party exceeds two players. |
| `Parties.JoinPartyKeepsInvariant` | server.js:275-306 | Joining keeps the registry invariant, whatever the outcome. |
| `Parties.JoinIgnoresCase` | server.js:276-277 | A live party's code typed in lower case joins exactly as the code itself does, and is never "not found". |
| `Parties.PlayerReady` | server.js:308-328 | A socket with no live party changes nothing. Otherwise it is marked ready in its party. `gameStarting` goes to the room iff the party then has two or more players, all ready. |
| `Parties.PlayerReadyKeepsInvariant` | server.js:308-328 | A ready signal keeps the registry invariant. |
| `Parties.SubmitAnswer` | server.js:330-338 | A socket with no party, or whose game is not playing, changes nothing. Otherwise only its own party's game changes, and it becomes exactly `RecordAnswer`'s game. So the answer is stored as judged and timed from the round's start, and the score rises by `SpeedPoints` iff the answer is correct. Players, question index, state and score keys are kept, and no other score moves. A result goes out iff the answers now number the players, and what goes out is `processAnswers`' result for the updated game. The invariant is kept. |
| `Parties.Disconnect` | server.js:340-364 | The back-reference goes. The socket leaves its party's players, scores and answers; if the party survives, the socket is no longer among its players. The room hears the remaining count. The party is deleted iff it is left empty, and every other party is untouched. |
| `Parties.DisconnectKeepsInvariant` | server.js:340-364 | Disconnecting keeps the registry invariant: surviving back-references still name live, non-empty parties that contain their sockets. |
| `Parties.LeavingPartyOfTwo` | server.js:340-361 | When one of two players leaves, the party survives with one player in the same state, and it is not ready to start. |
| `Parties.CountdownDone` | server.js:324-326 | The start countdown puts its party, whatever its state, back to question 1 with the same players, all at score 0 and no answers. With a non-empty bank the party is playing, the round starts at `now`, and the room hears question 1. Other parties and the back-references are untouched, and the invariant is kept. |
| `Parties.QuestionTimeout` | server.js:157-159 | The question timer changes no state. Its room hears one result for the current question: the 1-based index, the correct option and a line per player. The message is exactly `Games.ProcessAnswers`' result, so each line carries the recorded option. |
| `Parties.ResultDelayDone` | server.js:210-213 | The result delay moves its party alone on by exactly one question, keeping its players and scores. If questions remain, the next round has no answers and starts at `now`, and the room hears the next question. After the last question, the party is finished with nothing else changed, and the room hears exactly `EndGame`'s message: the tie rule, the winner and the standings. The invariant is kept. |
| `Parties.Apply` | server.js:253-364 | Every handler and every timer firing, when enabled, keeps the registry invariant. |
| `Parties.Run` | server.js:253-364 | Every registry reached from a sound one, by any sequence of handler calls and timer firings, is sound. Every back-reference names a live party that contains its socket, and every live party holds one or two players. A run of joins, ready signals, answers, departures, countdowns and result delays always completes. |
| `Witnesses.NegativeElapsedExceedsBonusCap` | server.js:176 | A clock that goes backwards can make a correct answer worth 26 points, above the usual cap of 25. |
| `Witnesses.TiedScoresHaveNoWinner` | server.js:224-247 | Final scores 10 and 10 give a tie and no winner. |
| `Witnesses.HigherScoreWins` | server.js:224-247 | Final scores 20 and 10 name the first player, with their name. |
| `Witnesses.AddPlayerHasNoCapacityCheck` | server.js:103-111 | `addPlayer` gives a two-player game a third player. |
| `Witnesses.StartGameHasNoStateGuard` | server.js:123-126 | `startGame` puts a finished game back into play at question 1, with every score reset to 0. |
| `Witnesses.WrongAnswerFirst` | server.js:165-179 | A wrong answer half a second in is recorded as option 0, incorrect, 500 ms. The answerer's score is unchanged and so is the other player's. With one of two players answered, the round does not resolve. |
| `Witnesses.FastCorrectAnswerResolves` | server.js:175-185 | A correct answer in the first second adds 25 points. Once the other player has answered, it resolves the round, however many times it is sent. |
| `Witnesses.FastCorrectAnswerRecorded` | server.js:168-179 | Recording a correct answer in the first second, with the other player's answer in, fills the round and adds exactly 25. |
| `Witnesses.RepeatedAnswersScoreAndResolveAgain` | server.js:168-185 | Answering the same question correctly twice scores twice (25, then 50). Each repeat emits another round result. |
| `Witnesses.FullRoundResolvesAgain` | server.js:181-185 | Once every player has answered, a further answer from any of them resolves the round again. |
| `Witnesses.RepeatedAnswerSkipsLastResult` | server.js:181-213 | A repeated answer on the second-to-last question starts two result delays. The first asks the last question and arms its timer. The second ends the game at index = bank length, before any result for the last question is sent. |
| `Witnesses.StrandedTimerFindsNoQuestion` | server.js:188-205 | At the registry level, the result delay that ends the game leaves the party live, finished at index = bank length, so the last question's pending timer finds no current question. |
| `Witnesses.DepartureDoesNotResolveRound` | server.js:113-117 | After one player answers and the other leaves, the answers equal the players, yet no result is sent. |
| `Witnesses.EveryReadyCheckAnnouncesStart` | server.js:321-326 | Once a party is ready, each further ready signal announces, and so schedules, another start. |
| `Witnesses.SecondCreateOrphansFirstParty` | server.js:256-264 | A socket that creates two parties stays a player of the first. After it disconnects, that party lives on with it, though no back-reference names it. |

## Left out

- HTTP plumbing: express middleware, static files, and the `/api/health`
  and `/api/parties` routes. They only read the registry.
- Transport: socket.io room joining and delivery. An emit is an event with
  a recipient. Rooms are not modelled, so a socket that joins a second party
  stays in the first party's room there, but not here. A deleted party's
  room is empty, because every socket in it has disconnected. So a
  countdown or result delay that fires for a deleted party reaches nobody,
  and the model lets it change nothing. A question timer for a deleted
  party is the exception; see the `Parties.QuestionTimeout` entry below.
- Timers: `setTimeout`, `clearTimeout` and the `questionTimer` handle.
  Timer callbacks are transitions that may be applied at any time. The model
  does not show that clearing a timer stops it, or that a timer handle
  overwritten by a second `nextQuestion` can no longer be cleared.
- `Parties.QuestionTimeout` and `Games.ProcessAnswers` require that the game
  has a current question.
  In the source, a question timer that fires after the game has finished
  throws a `TypeError`, because it reads `correctAnswer` of a missing
  question. The throw happens inside a timer callback with no handler, so
  the Node process exits and every party is lost. Any client can cause it.
  After both players have answered the second-to-last question, one more
  answer resolves that round a second time, so two result delays run. The
  first asks the last question and arms its timer; the second ends the game
  (`Witnesses.RepeatedAnswerSkipsLastResult`). The pending timer then fires
  on a finished party at index = bank length, which `Parties.Enabled`
  refuses (`Witnesses.StrandedTimerFindsNoQuestion`). The same crash
  happens if both players then disconnect before that timer fires: the
  party is deleted, but the timer's closure still holds its finished game.
  For a deleted party the model shows a harmless no-op instead. The crash
  itself and the loss of the registry are not modelled.
- `Games.ProcessAnswers` requires `g.index < |bank|` for the same reason.
  Past the bank, the source's `processAnswers` throws the `TypeError`
  described in the previous entry.
- `Games.SubmitAnswer` requires, while playing, that the answering socket is
  a player of the game. The only caller guarantees this through
  `Parties.Invariant`. For a non-member, the source would still store the
  answer, under an id with no matching player. So the answer count could
  reach the player count early and resolve the round too soon. A correct
  answer would also add a `NaN` score for that id.
- Clock: `Date.now()` becomes a `now` parameter. The source reads the clock
  twice in `submitAnswer`, for `timeTaken` and for the bonus; the model
  uses one instant for both.
- Code generation: `uuidv4` becomes a `code` parameter, required to be
  eight upper-case hex digits and not live. The source does not check for
  collisions.
- `Base.ToUpper` maps only ASCII letters, one character to one.
  `toUpperCase` also maps other scripts, for example dotless ı to I, and
  some characters to several: `"ABCDEﬀ1".toUpperCase()` is `"ABCDEFF1"`.
  So a join with that typed code finds party ABCDEFF1 in the source, while
  the model answers "Party not found". Generated codes themselves are
  plain ASCII.
- Question texts and option strings: only the number of questions and each
  correct option affect the engine. The `question` message carries text and
  options that are not modelled.
- Logging, and the `score` field of a player record, which is never read.
- JavaScript values other than integers: `answerIndex` is modelled as an
  `int`, compared with `===` against the correct option.

=== FILE: base.dfy ===
/** Shared vocabulary of the trivia party engine: optional values, the
    identifiers the server keys its maps by, and the ASCII case mapping used
    to normalise party codes. */
module Base {

  /** A value that may be absent (`null` or `undefined` on the wire). */
  datatype Option<+T> = None | Some(value: T)

  /** A socket id; it names both a connection and the player it controls. */
  type PlayerId = string

  /** A party code; the same string keys the party map and names the
      broadcast room of the party. */
  type Code = string

  function Max(a: int, b: int): (m: int)
    ensures m >= a && m >= b
    ensures m == a || m == b
  {
    if a >= b then a else b
  }

  function UpperChar(c: char): char {
    if 'a' <= c <= 'z' then (c as int - 32) as char else c
  }

  function LowerChar(c: char): char {
    if 'A' <= c <= 'Z' then (c as int + 32) as char else c
  }

  /** `String.prototype.toUpperCase`, restricted to ASCII letters. */
  function ToUpper(s: string): (r: string)
    ensures |r| == |s|
    ensures forall i :: 0 <= i < |s| ==> r[i] == UpperChar(s[i])
  {
    seq(|s|, i requires 0 <= i < |s| => UpperChar(s[i]))
  }

  function ToLower(s: string): (r: string)
    ensures |r| == |s|
    ensures forall i :: 0 <= i < |s| ==> r[i] == LowerChar(s[i])
  {
    seq(|s|, i requires 0 <= i < |s| => LowerChar(s[i]))
  }

  predicate IsUpperHexDigit(c: char) {
    '0' <= c <= '9' || 'A' <= c <= 'F'
  }

  /** The shape of a generated party code: the first eight characters of a
      version 4 UUID, upper-cased. */
  predicate IsPartyCode(s: string) {
    |s| == 8 && forall i :: 0 <= i < |s| ==> IsUpperHexDigit(s[i])
  }

  /** A generated code is its own upper-case form, and so is the upper-case
      form of its lower-case spelling. */
  lemma PartyCodeCaseRoundTrip(s: string)
    requires IsPartyCode(s)
    ensures ToUpper(s) == s
    ensures ToUpper(ToLower(s)) == s
  {
    assert forall i :: 0 <= i < |s| ==> ToUpper(s)[i] == s[i];
    assert forall i :: 0 <= i < |s| ==> ToUpper(ToLower(s))[i] == s[i];
  }
}

=== FILE: events.dfy ===
/** The messages the server emits. Delivery is not modelled: an emit becomes
    an `Event` appended to the output of the transition that made it. */
module Events {
  import opened Base

  /** One row of a `questionResult` message. */
  datatype PlayerResult = PlayerResult(
    playerId: PlayerId,
    playerName: string,
    answer: Option<int>,
    isCorrect: bool,
    score: int)

  /** One row of the `finalResults` of a `gameEnd` message. */
  datatype Standing = Standing(playerId: PlayerId, playerName: string, score: int)

  datatype Msg =
    | PartyCreated(partyCode: Code, playerName: string)
    | PartyJoined(partyId: Code, playerName: string)
    | PlayerJoined(joinedName: string, playerCount: nat)
    | Error(message: string)
    | GameStarting(countdown: nat)
    | PlayerLeft(leftName: string, remaining: nat)
    | Question(questionIndex: nat, totalQuestions: nat, timeLimit: nat)
    | QuestionResult(resultIndex: nat, correctAnswer: int, results: seq<PlayerResult>)
    | GameEnd(winner: Option<PlayerId>, winnerName: Option<string>, tie: bool,
               finalResults: seq<Standing>)

  /** `socket.emit` reaches one connection; `io.to(code).emit` reaches the
      room of a party. */
  datatype Target = ToSocket(socket: PlayerId) | ToRoom(room: Code)

  datatype Event = Event(target: Target, msg: Msg)

  const PartyNotFound := "Party not found"
  const PartyIsFull := "Party is full"

  /** Seconds announced by `gameStarting`; the start timer is 3000 ms. */
  const StartCountdown := 3
}

=== FILE: games.dfy ===
/** The per-party `Game` object: players, scores, the answers of the current
    round, and the transitions that drive a party through its questions.
    Each transition is a pure function returning the new game and the
    messages it broadcasts to the party's room. Timer callbacks are
    transitions of their own (`ProcessAnswers` for the 15 s question timer,
    `AdvanceAfterResult` for the 3 s result delay); which timers are pending
    is not tracked. */
module Games {
  import opened Base
  import opened Scoring
  import opened Events

  /** Only the correct option of a quiz item matters to the engine. */
  datatype QuizItem = QuizItem(correctAnswer: int)

  /** Correct options of the ten built-in questions. */
  const QuizBank: seq<QuizItem> := [
    QuizItem(2), QuizItem(1), QuizItem(3), QuizItem(1), QuizItem(1),
    QuizItem(2), QuizItem(2), QuizItem(1), QuizItem(2), QuizItem(1)]

  datatype GameState = Waiting | Playing | Finished

  datatype Player = Player(id: PlayerId, name: string, ready: bool)

  /** A recorded answer; `timeTaken` is in milliseconds. */
  datatype Answer = Answer(answerIndex: int, isCorrect: bool, timeTaken: int)

  /** `players` keeps the insertion order of the source's `Map`; `scores`
      holds exactly the players' ids and is iterated in that same order. */
  datatype Game = Game(
    partyId: Code,
    players: seq<Player>,
    index: nat,
    state: GameState,
    scores: map<PlayerId, int>,
    answers: map<PlayerId, Answer>,
    startTime: int)

  datatype Step = Step(game: Game, events: seq<Event>)

  function IdSet(ps: seq<Player>): set<PlayerId> {
    set i | 0 <= i < |ps| :: ps[i].id
  }

  predicate Distinct(ps: seq<Player>) {
    forall i, j :: 0 <= i < j < |ps| ==> ps[i].id != ps[j].id
  }

  /** Shape every reachable game has: player ids are unique, the score map is
      keyed by exactly the players, answers only by players, and no score is
      negative. */
  predicate WellFormed(g: Game) {
    && Distinct(g.players)
    && g.scores.Keys == IdSet(g.players)
    && g.answers.Keys <= IdSet(g.players)
    && (forall id :: id in g.scores ==> g.scores[id] >= 0)
  }

  /** Every recorded answer was judged against the current question. */
  predicate AnswersJudged(bank: seq<QuizItem>, g: Game) {
    g.index < |bank| ==>
      forall id :: id in g.answers ==>
        g.answers[id].isCorrect == (g.answers[id].answerIndex == bank[g.index].correctAnswer)
  }

  /** The reachable-state invariant: established by `NewGame` and kept by
      every transition. While playing, the current question exists. */
  predicate Valid(bank: seq<QuizItem>, g: Game) {
    && WellFormed(g)
    && (g.state == Playing ==> g.index < |bank|)
    && AnswersJudged(bank, g)
  }

  lemma {:induction false} DistinctIdCount(ps: seq<Player>)
    requires Distinct(ps)
    ensures |IdSet(ps)| == |ps|
  {
    if |ps| > 0 {
      var p := ps[..|ps| - 1];
      DistinctIdCount(p);
      assert IdSet(ps) == IdSet(p) + {ps[|ps| - 1].id};
      assert ps[|ps| - 1].id !in IdSet(p);
    }
  }

  /** The answers of a round never outnumber the players. */
  lemma AnswersBounded(g: Game)
    requires WellFormed(g)
    ensures |g.answers| <= |g.players|
  {
    DistinctIdCount(g.players);
    SubsetCard(g.answers.Keys, IdSet(g.players));
  }

  lemma {:induction false} SubsetCard<T>(a: set<T>, b: set<T>)
    requires a <= b
    ensures |a| <= |b|
    decreases |a|
  {
    if a != {} {
      var x :| x in a;
      SubsetCard(a - {x}, b - {x});
    }
  }

  /** `new Game(partyId)`. */
  function NewGame(code: Code): (g: Game)
    ensures g.partyId == code && g.state == Waiting && g.index == 0
    ensures g.players == [] && g.scores == map[] && g.answers == map[]
    ensures forall bank :: Valid(bank, g)
  {
    Game(code, [], 0, Waiting, map[], map[], 0)
  }

  /** `Map.set` on the players: an existing id keeps its place and gets the
      new record; a new id goes last. */
  function Upsert(ps: seq<Player>, p: Player): (r: seq<Player>)
    ensures IdSet(r) == IdSet(ps) + {p.id}
    ensures p.id in IdSet(ps) ==>
      |r| == |ps| && forall i :: 0 <= i < |ps| ==> r[i] == (if ps[i].id == p.id then p else ps[i])
    ensures p.id !in IdSet(ps) ==> r == ps + [p]
    ensures Distinct(ps) ==> Distinct(r)
  {
    if p.id in IdSet(ps) then
      var r := seq(|ps|, i requires 0 <= i < |ps| => if ps[i].id == p.id then p else ps[i]);
      assert IdSet(r) == IdSet(ps) by {
        forall id | id in IdSet(ps) ensures id in IdSet(r) {
          var i :| 0 <= i < |ps| && ps[i].id == id;
          assert r[i].id == id;
        }
      }
      r
    else
      var r := ps + [p];
      assert IdSet(r) == IdSet(ps) + {p.id} by {
        assert r[|ps|].id == p.id;
        forall x | x in IdSet(ps) ensures x in IdSet(r) {
          var i :| 0 <= i < |ps| && ps[i].id == x;
          assert r[i].id == x;
        }
      }
      r
  }

  /** `Map.delete` on the players: the record of `id` is cut out and the
      others keep their order. */
  function Without(ps: seq<Player>, id: PlayerId): (r: seq<Player>)
    ensures IdSet(r) == IdSet(ps) - {id}
    ensures forall i :: 0 <= i < |r| ==> r[i] in ps
    ensures Distinct(ps) ==> Distinct(r) && |r| == |ps| - (if id in IdSet(ps) then 1 else 0)
  {
    if |ps| == 0 then []
    else
      var rest := Without(ps[1..], id);
      IdSetSplit(ps);
      if ps[0].id == id then rest
      else
        var r := [ps[0]] + rest;
        assert r[1..] == rest;
        IdSetSplit(r);
        r
  }

  /** The ids of a non-empty list: its head's and its tail's. */
  lemma IdSetSplit(ps: seq<Player>)
    requires |ps| > 0
    ensures IdSet(ps) == {ps[0].id} + IdSet(ps[1..])
  {
    forall x | x in IdSet(ps) ensures x in {ps[0].id} + IdSet(ps[1..]) {
      var i :| 0 <= i < |ps| && ps[i].id == x;
      if i > 0 { assert ps[1..][i - 1].id == x; }
    }
    forall x | x in IdSet(ps[1..]) ensures x in IdSet(ps) {
      var i :| 0 <= i < |ps[1..]| && ps[1..][i].id == x;
      assert ps[i + 1].id == x;
    }
  }

  /** Deleting an absent id changes nothing. */
  lemma {:induction false} WithoutAbsent(ps: seq<Player>, id: PlayerId)
    requires id !in IdSet(ps)
    ensures Without(ps, id) == ps
  {
    if |ps| > 0 {
      IdSetSplit(ps);
      WithoutAbsent(ps[1..], id);
      assert [ps[0]] + ps[1..] == ps;
    }
  }

  /** Deleting the first player's id, held by no later player, leaves the
      tail. */
  lemma WithoutHead(ps: seq<Player>)
    requires |ps| > 0 && ps[0].id !in IdSet(ps[1..])
    ensures Without(ps, ps[0].id) == ps[1..]
  {
    WithoutAbsent(ps[1..], ps[0].id);
  }

  /** Position of the first record of `id`. */
  function FirstIndex(ps: seq<Player>, id: PlayerId): (k: nat)
    requires id in IdSet(ps)
    ensures k < |ps| && ps[k].id == id
    ensures forall j :: 0 <= j < k ==> ps[j].id != id
  {
    if ps[0].id == id then 0
    else
      IdSetSplit(ps);
      FirstIndex(ps[1..], id) + 1
  }

  /** Cutting out one element past the head commutes with taking the head. */
  lemma ConsCut<T>(s: seq<T>, k: nat)
    requires 0 < k < |s|
    ensures s[..k] + s[k + 1..] == [s[0]] + (s[1..][..k - 1] + s[1..][k..])
  {
  }

  /** Deleting a present id cuts out exactly its one record, leaving the
      others in order. */
  lemma {:induction false} WithoutCutsOne(ps: seq<Player>, id: PlayerId)
    requires Distinct(ps) && id in IdSet(ps)
    ensures var k := FirstIndex(ps, id); Without(ps, id) == ps[..k] + ps[k + 1..]
  {
    var tail := ps[1..];
    if ps[0].id == id {
      assert id !in IdSet(tail);
      WithoutHead(ps);
      assert FirstIndex(ps, id) == 0;
      assert ps[..0] + ps[0 + 1..] == tail;
    } else {
      IdSetSplit(ps);
      assert Distinct(tail);
      WithoutCutsOne(tail, id);
      var k := FirstIndex(tail, id);
      assert FirstIndex(ps, id) == k + 1;
      ConsCut(ps, k + 1);
    }
  }

  /** The name recorded for `id`, as `players.get(id)?.name` reads it. */
  function NameOf(ps: seq<Player>, id: PlayerId): Option<string> {
    if |ps| == 0 then None
    else if ps[0].id == id then Some(ps[0].name)
    else NameOf(ps[1..], id)
  }

  lemma {:induction false} NameOfPlayer(ps: seq<Player>, i: nat)
    requires Distinct(ps) && i < |ps|
    ensures NameOf(ps, ps[i].id) == Some(ps[i].name)
  {
    if i > 0 {
      NameOfPlayer(ps[1..], i - 1);
    }
  }

  /** `addPlayer`: records the player as not ready and sets their score to 0.
      There is no capacity check and no state check; an id already present
      keeps its place and gets a fresh record under the new name. */
  function AddPlayer(g: Game, id: PlayerId, name: string): (r: Game)
    ensures r == g.(players := r.players, scores := g.scores[id := 0])
    ensures IdSet(r.players) == IdSet(g.players) + {id}
    ensures id in IdSet(g.players) ==>
      && |r.players| == |g.players|
      && forall i :: 0 <= i < |g.players| ==>
           r.players[i] == (if g.players[i].id == id then Player(id, name, false) else g.players[i])
    ensures id !in IdSet(g.players) ==> r.players == g.players + [Player(id, name, false)]
    ensures WellFormed(g) ==> WellFormed(r)
    ensures forall bank :: Valid(bank, g) ==> Valid(bank, r)
  {
    g.(players := Upsert(g.players, Player(id, name, false)), scores := g.scores[id := 0])
  }

  /** `removePlayer`: forgets the player's record, score and answer; the
      other players keep their order. It never resolves the round, even when
      every remaining player has answered. */
  function RemovePlayer(g: Game, id: PlayerId): (r: Game)
    ensures r == g.(players := r.players, scores := g.scores - {id}, answers := g.answers - {id})
    ensures IdSet(r.players) == IdSet(g.players) - {id}
    ensures id !in IdSet(g.players) ==> r.players == g.players
    ensures Distinct(g.players) && id in IdSet(g.players) ==>
      exists k :: 0 <= k < |g.players| && g.players[k].id == id && r.players == g.players[..k] + g.players[k + 1..]
    ensures WellFormed(g) ==> WellFormed(r) && |r.players| == |g.players| - (if id in IdSet(g.players) then 1 else 0)
    ensures forall bank :: Valid(bank, g) ==> Valid(bank, r)
  {
    assert id !in IdSet(g.players) ==> Without(g.players, id) == g.players by {
      if id !in IdSet(g.players) { WithoutAbsent(g.players, id); }
    }
    assert Distinct(g.players) && id in IdSet(g.players) ==>
      exists k :: 0 <= k < |g.players| && g.players[k].id == id && Without(g.players, id) == g.players[..k] + g.players[k + 1..]
    by {
      if Distinct(g.players) && id in IdSet(g.players) {
        WithoutCutsOne(g.players, id);
        var k := FirstIndex(g.players, id);
        assert g.players[k].id == id;
      }
    }
    g.(players := Without(g.players, id), scores := g.scores - {id}, answers := g.answers - {id})
  }

  /** `playerData.ready = true` for a known player; unknown ids change
      nothing. */
  function MarkReady(g: Game, id: PlayerId): (r: Game)
    ensures r == g.(players := r.players)
    ensures |r.players| == |g.players|
    ensures forall i :: 0 <= i < |g.players| ==>
      r.players[i] == (if g.players[i].id == id then g.players[i].(ready := true) else g.players[i])
    ensures WellFormed(g) ==> WellFormed(r)
    ensures forall bank :: Valid(bank, g) ==> Valid(bank, r)
  {
    var ps := seq(|g.players|, i requires 0 <= i < |g.players| =>
      if g.players[i].id == id then g.players[i].(ready := true) else g.players[i]);
    assert IdSet(ps) == IdSet(g.players) by {
      forall x | x in IdSet(g.players) ensures x in IdSet(ps) {
        var i :| 0 <= i < |g.players| && g.players[i].id == x;
        assert ps[i].id == x;
      }
    }
    g.(players := ps)
  }

  /** `isReady`: at least two players and every one of them ready. */
  predicate IsReady(g: Game) {
    |g.players| >= 2 && forall i :: 0 <= i < |g.players| ==> g.players[i].ready
  }

  /** A player's ready signal makes the game ready exactly when it has at
      least two players and every other player was already ready; the game
      never becomes ready while a player has not signalled. */
  lemma ReadyAfterMarking(g: Game, id: PlayerId)
    ensures IsReady(MarkReady(g, id)) <==>
      && |g.players| >= 2
      && forall i :: 0 <= i < |g.players| && g.players[i].id != id ==> g.players[i].ready
  {
    var r := MarkReady(g, id);
    if IsReady(r) {
      forall i | 0 <= i < |g.players| && g.players[i].id != id
        ensures g.players[i].ready
      {
        assert r.players[i] == g.players[i];
      }
    }
  }

  /** The `gameEnd` row of each player, in player order. */
  function Standings(g: Game): (rs: seq<Standing>)
    requires WellFormed(g)
    ensures |rs| == |g.players|
    ensures forall i :: 0 <= i < |rs| ==>
      rs[i] == Standing(g.players[i].id, g.players[i].name, g.scores[g.players[i].id])
  {
    seq(|g.players|, i requires 0 <= i < |g.players| =>
      assert g.players[i].id in IdSet(g.players);
      Standing(g.players[i].id, g.players[i].name, g.scores[g.players[i].id]))
  }

  /** The scores as `endGame` visits them. */
  function ScoreEntries(g: Game): (es: seq<Entry>)
    requires WellFormed(g)
    ensures |es| == |g.players|
    ensures forall i :: 0 <= i < |es| ==> es[i] == Entry(g.players[i].id, g.scores[g.players[i].id])
  {
    seq(|g.players|, i requires 0 <= i < |g.players| =>
      assert g.players[i].id in IdSet(g.players);
      Entry(g.players[i].id, g.scores[g.players[i].id]))
  }

  /** `endGame`: the game is finished and one `gameEnd` lists every player's
      score. It reports a tie exactly when two players share the highest
      score; otherwise the winner is the one player holding it; with no
      players there is neither. */
  function EndGame(g: Game): (r: Step)
    requires WellFormed(g)
    ensures r.game == g.(state := Finished)
    ensures |r.events| == 1 && r.events[0].target == ToRoom(g.partyId) && r.events[0].msg.GameEnd?
    ensures var m := r.events[0].msg; var es := ScoreEntries(g);
      && m.finalResults == Standings(g)
      && (|es| == 0 ==> m.winner == None && m.winnerName == None && !m.tie)
      && (|es| > 0 ==>
           (m.tie <==> exists i, j :: 0 <= i < j < |es| && es[i].score == TopScore(es) && es[j].score == TopScore(es)))
      && (m.tie ==> m.winner == None && m.winnerName == None)
      && (|es| > 0 && !m.tie ==>
           exists i :: 0 <= i < |es|
             && m.winner == Some(g.players[i].id)
             && m.winnerName == Some(g.players[i].name)
             && forall k :: 0 <= k < |es| && k != i ==> es[k].score < es[i].score)
  {
    var es := ScoreEntries(g);
    var t := ScanScores(es);
    var winnerName := if t.tie then None else match t.winner
      case None => None
      case Some(w) => NameOf(g.players, w);
    assert |es| > 0 && !t.tie ==>
      exists i :: 0 <= i < |es| && t.winner == Some(g.players[i].id) && winnerName == Some(g.players[i].name)
        && forall k :: 0 <= k < |es| && k != i ==> es[k].score < es[i].score
    by {
      WinnerRule(es);
      if |es| > 0 && !t.tie {
        var i :| 0 <= i < |es| && t.winner == Some(es[i].id)
          && forall k :: 0 <= k < |es| && k != i ==> es[k].score < es[i].score;
        NameOfPlayer(g.players, i);
      }
    }
    WinnerRule(es);
    Step(g.(state := Finished),
      [Event(ToRoom(g.partyId), GameEnd(if t.tie then None else t.winner, winnerName, t.tie, Standings(g)))])
  }

  /** `nextQuestion`: once the index has run past the bank the game ends;
      otherwise the round's answers are cleared, its start time recorded, and
      the question announced with its 1-based position, the bank's length and
      the 15 000 ms limit. */
  function NextQuestion(bank: seq<QuizItem>, g: Game, now: int): (r: Step)
    requires WellFormed(g)
    ensures g.index >= |bank| ==> r == EndGame(g) && r.game.state == Finished
    ensures g.index < |bank| ==>
      && r.game == g.(answers := map[], startTime := now)
      && r.events == [Event(ToRoom(g.partyId), Question(g.index + 1, |bank|, TimeLimitMs))]
    ensures r.game.index == g.index && r.game.players == g.players && r.game.scores == g.scores
    ensures WellFormed(r.game)
  {
    if g.index >= |bank| then EndGame(g)
    else
      Step(g.(startTime := now, answers := map[]),
        [Event(ToRoom(g.partyId), Question(g.index + 1, |bank|, TimeLimitMs))])
  }

  /** `startGame`, and so the transition run when the 3 s start countdown
      fires. It checks no state: any game goes back to question 1 with every
      current player at score 0 and no answers (an empty bank ends it
      at once). */
  function StartGame(bank: seq<QuizItem>, g: Game, now: int): (r: Step)
    requires WellFormed(g)
    ensures r.game.index == 0 && r.game.players == g.players
    ensures r.game.partyId == g.partyId && r.game.answers == map[]
    ensures |bank| > 0 ==> r.game.startTime == now
    ensures r.game.scores.Keys == IdSet(g.players)
    ensures forall id :: id in r.game.scores ==> r.game.scores[id] == 0
    ensures |bank| > 0 ==>
      && r.game.state == Playing
      && r.game.answers == map[]
      && r.events == [Event(ToRoom(g.partyId), Question(1, |bank|, TimeLimitMs))]
    ensures |bank| == 0 ==> r.game.state == Finished
    ensures Valid(bank, r.game)
  {
    var reset := g.(state := Playing, index := 0, answers := map[],
                    scores := map id | id in IdSet(g.players) :: 0);
    NextQuestion(bank, reset, now)
  }

  /** A `questionResult` row that reports player `p` as game `g` stands: the
      player's id, name and current score; the option they recorded, if any,
      with the correctness judged when they answered; and that correctness
      agrees with the current question's correct option. */
  predicate Reports(bank: seq<QuizItem>, g: Game, p: Player, res: PlayerResult) {
    && res.playerId == p.id && res.playerName == p.name
    && p.id in g.scores && res.score == g.scores[p.id]
    && (res.answer.Some? <==> p.id in g.answers)
    && (p.id in g.answers ==>
         res.answer == Some(g.answers[p.id].answerIndex) && res.isCorrect == g.answers[p.id].isCorrect)
    && 0 <= g.index < |bank|
    && (res.isCorrect <==> res.answer == Some(bank[g.index].correctAnswer))
  }

  /** `processAnswers`, and so the transition run when the question timer
      fires: the game is unchanged and one `questionResult` carries, for each
      current player in order, the recorded option (none if they did not
      answer), its correctness and the player's current score. */
  function ProcessAnswers(bank: seq<QuizItem>, g: Game): (r: Step)
    requires Valid(bank, g) && g.index < |bank|
    ensures r.game == g
    ensures |r.events| == 1 && r.events[0].target == ToRoom(g.partyId)
    ensures r.events[0].msg.QuestionResult?
    ensures var m := r.events[0].msg;
      && m.resultIndex == g.index + 1
      && m.correctAnswer == bank[g.index].correctAnswer
      && |m.results| == |g.players|
      && forall i :: 0 <= i < |m.results| ==> Reports(bank, g, g.players[i], m.results[i])
  {
    var results := seq(|g.players|, i requires 0 <= i < |g.players| =>
      var p := g.players[i];
      assert p.id in IdSet(g.players);
      if p.id in g.answers then
        PlayerResult(p.id, p.name, Some(g.answers[p.id].answerIndex), g.answers[p.id].isCorrect, g.scores[p.id])
      else
        PlayerResult(p.id, p.name, None, false, g.scores[p.id]));
    Step(g, [Event(ToRoom(g.partyId),
      QuestionResult(g.index + 1, bank[g.index].correctAnswer, results))])
  }

  /** The transition run when the 3 s result delay fires: the index moves on
      by exactly one and the next question is asked, or the game ends. */
  function AdvanceAfterResult(bank: seq<QuizItem>, g: Game, now: int): (r: Step)
    requires Valid(bank, g)
    ensures r.game.index == g.index + 1
    ensures r.game.state == (if g.index + 1 >= |bank| then Finished else g.state)
    ensures g.index + 1 < |bank| ==> r.events == [Event(ToRoom(g.partyId), Question(g.index + 2, |bank|, TimeLimitMs))]
    ensures g.index + 1 >= |bank| ==> |r.events| == 1 && r.events[0].msg.GameEnd?
    ensures g.index + 1 < |bank| ==> r.game == g.(index := g.index + 1, answers := map[], startTime := now)
    ensures g.index + 1 >= |bank| ==> r.game == g.(index := g.index + 1, state := Finished)
    ensures g.index + 1 >= |bank| ==> r == EndGame(g.(index := g.index + 1))
    ensures r.game.players == g.players && r.game.scores == g.scores
    ensures Valid(bank, r.game)
  {
    NextQuestion(bank, g.(index := g.index + 1), now)
  }

  /** The recording half of `submitAnswer` while playing: the player's
      answer is stored, judged against the current question and timed from
      the question's start; a correct answer adds `SpeedPoints` to that
      player's score alone, which therefore never decreases. */
  function RecordAnswer(bank: seq<QuizItem>, g: Game, id: PlayerId, answerIndex: int, now: int): (r: Game)
    requires g.index < |bank| && id in g.scores
    ensures r == g.(answers := r.answers, scores := r.scores)
    ensures r.answers == g.answers[id := Answer(answerIndex, answerIndex == bank[g.index].correctAnswer, now - g.startTime)]
    ensures r.scores.Keys == g.scores.Keys
    ensures r.scores[id] == g.scores[id] + (if answerIndex == bank[g.index].correctAnswer then SpeedPoints(now - g.startTime) else 0)
    ensures r.scores[id] >= g.scores[id]
    ensures forall other :: other in g.scores && other != id ==> r.scores[other] == g.scores[other]
    ensures Valid(bank, g) && id in IdSet(g.players) ==> Valid(bank, r)
  {
    var correct := answerIndex == bank[g.index].correctAnswer;
    var elapsed := now - g.startTime;
    var scores := if correct then g.scores[id := g.scores[id] + SpeedPoints(elapsed)] else g.scores;
    g.(answers := g.answers[id := Answer(answerIndex, correct, elapsed)], scores := scores)
  }

  /** `submitAnswer`. Outside `Playing` nothing happens. Otherwise the answer
      is recorded, and the round resolves at once exactly when the answers
      are now as many as the players. Nothing stops a player from answering
      again: the new answer replaces the old one, scores once more, and
      resolves the round once more if it is full. */
  function SubmitAnswer(bank: seq<QuizItem>, g: Game, id: PlayerId, answerIndex: int, now: int): (r: Step)
    requires Valid(bank, g)
    requires g.state == Playing ==> id in IdSet(g.players)
    ensures g.state != Playing ==> r == Step(g, [])
    ensures g.state == Playing ==>
      && r.game == RecordAnswer(bank, g, id, answerIndex, now)
      && (r.events != [] <==> |r.game.answers| == |g.players|)
      && (r.events != [] ==> r.events == ProcessAnswers(bank, r.game).events)
    ensures r.game.partyId == g.partyId && r.game.players == g.players
    ensures r.game.index == g.index && r.game.state == g.state && r.game.scores.Keys == g.scores.Keys
    ensures g.state == Playing ==>
      && id in r.game.answers
      && r.game.scores[id] >= g.scores[id]
      && (forall other :: other in g.scores && other != id ==> r.game.scores[other] == g.scores[other])
    ensures Valid(bank, r.game)
  {
    if g.state != Playing then Step(g, [])
    else
      var g' := RecordAnswer(bank, g, id, answerIndex, now);
      if |g'.answers| == |g.players| then ProcessAnswers(bank, g')
      else Step(g', [])
  }

  /** Rounds in which nobody answers: each question timer fires, then each
      result delay. A playing game finishes after exactly one result and one
      follow-up message per remaining question, the last being `gameEnd`. */
  function TimeOutRemainingRounds(bank: seq<QuizItem>, g: Game, now: int): (r: Step)
    requires Valid(bank, g) && g.state == Playing
    ensures r.game.state == Finished && r.game.index == |bank|
    ensures |r.events| == 2 * (|bank| - g.index)
    ensures r.events[|r.events| - 1].msg.GameEnd?
    ensures Valid(bank, r.game)
    decreases |bank| - g.index
  {
    var resolved := ProcessAnswers(bank, g);
    var next := AdvanceAfterResult(bank, resolved.game, now);
    if next.game.state == Playing then
      var rest := TimeOutRemainingRounds(bank, next.game, now);
      Step(rest.game, resolved.events + next.events + rest.events)
    else
      Step(next.game, resolved.events + next.events)
  }
}

=== FILE: parties.dfy ===
/** The process-wide registry: `parties` maps a party code to its game and
    `players` maps a socket to the party it last created or joined. Each
    socket event handler, and each timer callback that reaches a live party,
    is a pure transition of the registry returning the messages it emits. */
module Parties {
  import opened Base
  import opened Events
  import opened Scoring
  import opened Games

  /** The back-reference `players` keeps for a socket. */
  datatype Membership = Membership(partyId: Code, playerName: string)

  datatype Registry = Registry(parties: map<Code, Game>, players: map<PlayerId, Membership>)

  datatype Outcome = Outcome(reg: Registry, events: seq<Event>)

  /** `joinParty` turns joiners away from a party of this many players. */
  const Capacity := 2

  const EmptyRegistry := Registry(map[], map[])

  /** A live party: keyed by its own code, a generated code, a valid game,
      and at least one player. */
  predicate LiveParty(bank: seq<QuizItem>, reg: Registry, c: Code)
    requires c in reg.parties
  {
    var g := reg.parties[c];
    && g.partyId == c
    && IsPartyCode(c)
    && Games.Valid(bank, g)
    && 1 <= |g.players|
  }

  /** Every socket's back-reference names a live party that has that socket
      among its players. */
  predicate BackReferencesLive(reg: Registry) {
    forall s :: s in reg.players ==>
      reg.players[s].partyId in reg.parties
      && s in IdSet(reg.parties[reg.players[s].partyId].players)
  }

  /** No party holds more than two players. */
  predicate WithinCapacity(reg: Registry) {
    forall c :: c in reg.parties ==> |reg.parties[c].players| <= Capacity
  }

  /** The registry invariant. */
  predicate Invariant(bank: seq<QuizItem>, reg: Registry) {
    && (forall c :: c in reg.parties ==> LiveParty(bank, reg, c))
    && WithinCapacity(reg)
    && BackReferencesLive(reg)
  }

  lemma EmptyRegistryInvariant(bank: seq<QuizItem>)
    ensures Invariant(bank, EmptyRegistry)
  {
  }

  /** Replacing a live party's game by a valid game for the same code and
      the same players keeps the registry sound. */
  lemma ReplaceGameKeepsInvariant(bank: seq<QuizItem>, reg: Registry, code: Code, g': Game)
    requires Invariant(bank, reg) && code in reg.parties
    requires Games.Valid(bank, g') && g'.partyId == code && g'.players == reg.parties[code].players
    ensures Invariant(bank, reg.(parties := reg.parties[code := g']))
  {
    var r := reg.(parties := reg.parties[code := g']);
    forall c | c in r.parties ensures LiveParty(bank, r, c) {
      assert LiveParty(bank, reg, c);
    }
  }

  /** `createParty` with the generated code `code`, which the source assumes
      is not live: a new waiting party whose only player is the creator at
      score 0, a back-reference to it, and `partyCreated` to the creator.
      Every other party is untouched. */
  function CreateParty(reg: Registry, socket: PlayerId, name: string, code: Code): (r: Outcome)
    requires IsPartyCode(code) && code !in reg.parties
    ensures r.reg.parties.Keys == reg.parties.Keys + {code}
    ensures forall c :: c in reg.parties ==> r.reg.parties[c] == reg.parties[c]
    ensures var g := r.reg.parties[code];
      && g.partyId == code && g.state == Waiting && g.index == 0
      && g.players == [Player(socket, name, false)]
      && g.scores == map[socket := 0] && g.answers == map[]
    ensures r.reg.players == reg.players[socket := Membership(code, name)]
    ensures r.events == [Event(ToSocket(socket), PartyCreated(code, name))]
    ensures WithinCapacity(reg) ==> WithinCapacity(r.reg)
  {
    var g := AddPlayer(NewGame(code), socket, name);
    Outcome(Registry(reg.parties[code := g], reg.players[socket := Membership(code, name)]),
      [Event(ToSocket(socket), PartyCreated(code, name))])
  }

  /** `joinParty`: the code is upper-cased before lookup. An unknown code is
      answered with "Party not found" and a party of two or more with "Party
      is full", and neither changes the registry. Otherwise the joiner is
      added to that party alone, the back-reference recorded, `partyJoined`
      sent to the joiner and `playerJoined` with the new size to the room. */
  function JoinParty(reg: Registry, socket: PlayerId, rawCode: string, name: string): (r: Outcome)
    ensures var code := ToUpper(rawCode);
      && (code !in reg.parties ==>
           r == Outcome(reg, [Event(ToSocket(socket), Error(PartyNotFound))]))
      && (code in reg.parties && |reg.parties[code].players| >= Capacity ==>
           r == Outcome(reg, [Event(ToSocket(socket), Error(PartyIsFull))]))
      && (code in reg.parties && |reg.parties[code].players| < Capacity ==>
           && r.reg.parties.Keys == reg.parties.Keys
           && (forall c :: c in reg.parties && c != code ==> r.reg.parties[c] == reg.parties[c])
           && r.reg.parties[code] == AddPlayer(reg.parties[code], socket, name)
           && socket in IdSet(r.reg.parties[code].players)
           && r.reg.players == reg.players[socket := Membership(code, name)]
           && r.events == [Event(ToSocket(socket), PartyJoined(code, name)),
                           Event(ToRoom(code), PlayerJoined(name, |r.reg.parties[code].players|))])
    ensures WithinCapacity(reg) ==> WithinCapacity(r.reg)
  {
    var code := ToUpper(rawCode);
    if code !in reg.parties then
      Outcome(reg, [Event(ToSocket(socket), Error(PartyNotFound))])
    else if |reg.parties[code].players| >= Capacity then
      Outcome(reg, [Event(ToSocket(socket), Error(PartyIsFull))])
    else
      var g := AddPlayer(reg.parties[code], socket, name);
      Outcome(Registry(reg.parties[code := g], reg.players[socket := Membership(code, name)]),
        [Event(ToSocket(socket), PartyJoined(code, name)),
         Event(ToRoom(code), PlayerJoined(name, |g.players|))])
  }

  /** `playerReady`: a socket with a live party marks itself ready in it;
      `gameStarting` goes to the room exactly when the party is then ready
      to start, at which point the source schedules a start. The check is
      made on every call, whatever the game's state. */
  function PlayerReady(reg: Registry, socket: PlayerId): (r: Outcome)
    ensures socket !in reg.players || reg.players[socket].partyId !in reg.parties ==> r == Outcome(reg, [])
    ensures socket in reg.players && reg.players[socket].partyId in reg.parties ==>
      var code := reg.players[socket].partyId;
      && r.reg == reg.(parties := reg.parties[code := MarkReady(reg.parties[code], socket)])
      && (r.events != [] <==> IsReady(r.reg.parties[code]))
      && (r.events != [] ==> r.events == [Event(ToRoom(code), GameStarting(StartCountdown))])
  {
    if socket !in reg.players then Outcome(reg, [])
    else
      var code := reg.players[socket].partyId;
      if code !in reg.parties then Outcome(reg, [])
      else
        var g := MarkReady(reg.parties[code], socket);
        Outcome(reg.(parties := reg.parties[code := g]),
          if IsReady(g) then [Event(ToRoom(code), GameStarting(StartCountdown))] else [])
  }

  /** `submitAnswer` as the socket handler routes it: a socket without a
      party, or whose game is not playing, changes nothing. Otherwise the
      answer is recorded in its own party alone, the answerer's score never
      drops and nobody else's moves, and a result goes out exactly when the
      answers are as many as the players. */
  function SubmitAnswer(bank: seq<QuizItem>, reg: Registry, socket: PlayerId, answerIndex: int, now: int): (r: Outcome)
    requires Invariant(bank, reg)
    ensures r.reg.players == reg.players && r.reg.parties.Keys == reg.parties.Keys
    ensures socket !in reg.players ==> r == Outcome(reg, [])
    ensures forall c :: c in reg.parties && (socket !in reg.players || c != reg.players[socket].partyId) ==>
      r.reg.parties[c] == reg.parties[c]
    ensures socket in reg.players ==>
      var code := reg.players[socket].partyId;
      var g := reg.parties[code];
      var g' := r.reg.parties[code];
      && g'.players == g.players && g'.index == g.index && g'.state == g.state
      && g'.scores.Keys == g.scores.Keys
      && (g.state != Playing ==> r == Outcome(reg, []))
      && (g.state == Playing ==>
           && socket in g'.answers
           && socket in g.scores && g'.scores[socket] >= g.scores[socket]
           && (forall other :: other in g.scores && other != socket ==> g'.scores[other] == g.scores[other])
           && (r.events != [] <==> |g'.answers| == |g.players|))
    ensures socket in reg.players && reg.parties[reg.players[socket].partyId].state == Playing ==>
      var code := reg.players[socket].partyId;
      var g' := RecordAnswer(bank, reg.parties[code], socket, answerIndex, now);
      && r.reg.parties[code] == g'
      && (r.events != [] ==> r.events == ProcessAnswers(bank, g').events)
    ensures Invariant(bank, r.reg)
  {
    if socket !in reg.players then Outcome(reg, [])
    else
      var code := reg.players[socket].partyId;
      if code !in reg.parties then Outcome(reg, [])
      else
        var g := reg.parties[code];
        assert socket in IdSet(g.players);
        var s := Games.SubmitAnswer(bank, g, socket, answerIndex, now);
        ReplaceGameKeepsInvariant(bank, reg, code, s.game);
        Outcome(reg.(parties := reg.parties[code := s.game]), s.events)
  }

  /** `disconnect`: the socket leaves its party's players, scores and
      answers, the room hears `playerLeft` with the remaining count, the party
      is deleted exactly when it is left empty, and the back-reference goes.
      Every other party is untouched. */
  function Disconnect(reg: Registry, socket: PlayerId): (r: Outcome)
    ensures socket !in r.reg.players
    ensures r.reg.players == reg.players - {socket}
    ensures socket !in reg.players ==> r == Outcome(reg, [])
    ensures socket in reg.players && reg.players[socket].partyId !in reg.parties ==>
      r == Outcome(reg.(players := reg.players - {socket}), [])
    ensures forall c :: c in reg.parties && (socket !in reg.players || c != reg.players[socket].partyId) ==>
      c in r.reg.parties && r.reg.parties[c] == reg.parties[c]
    ensures socket in reg.players && reg.players[socket].partyId in r.reg.parties ==>
      socket !in IdSet(r.reg.parties[reg.players[socket].partyId].players)
    ensures socket in reg.players && reg.players[socket].partyId in reg.parties ==>
      var m := reg.players[socket];
      var g := RemovePlayer(reg.parties[m.partyId], socket);
      && r.events == [Event(ToRoom(m.partyId), PlayerLeft(m.playerName, |g.players|))]
      && (|g.players| == 0 ==> r.reg.parties == reg.parties - {m.partyId})
      && (|g.players| > 0 ==> r.reg.parties == reg.parties[m.partyId := g])
  {
    if socket !in reg.players then Outcome(reg, [])
    else
      var m := reg.players[socket];
      var players := reg.players - {socket};
      if m.partyId !in reg.parties then Outcome(reg.(players := players), [])
      else
        var g := RemovePlayer(reg.parties[m.partyId], socket);
        var parties := if |g.players| == 0 then reg.parties - {m.partyId}
                       else reg.parties[m.partyId := g];
        Outcome(Registry(parties, players),
          [Event(ToRoom(m.partyId), PlayerLeft(m.playerName, |g.players|))])
  }

  /** The start countdown of party `code` elapsing. A countdown whose party
      has been deleted acts on a game no registry entry reaches, and its
      messages go to an empty room. */
  function CountdownDone(bank: seq<QuizItem>, reg: Registry, code: Code, now: int): (r: Outcome)
    requires Invariant(bank, reg)
    ensures r.reg.players == reg.players && r.reg.parties.Keys == reg.parties.Keys
    ensures forall c :: c in reg.parties && c != code ==> r.reg.parties[c] == reg.parties[c]
    ensures code !in reg.parties ==> r.events == []
    ensures code in reg.parties ==>
      var g := reg.parties[code];
      var g' := r.reg.parties[code];
      && g'.players == g.players && g'.index == 0
      && g'.scores.Keys == IdSet(g.players)
      && (forall id :: id in g'.scores ==> g'.scores[id] == 0)
      && g'.answers == map[] && (|bank| > 0 ==> g'.startTime == now)
      && (|bank| > 0 ==>
           g'.state == Playing && r.events == [Event(ToRoom(code), Question(1, |bank|, TimeLimitMs))])
    ensures Invariant(bank, r.reg)
  {
    if code !in reg.parties then Outcome(reg, [])
    else
      var s := StartGame(bank, reg.parties[code], now);
      Outcome(reg.(parties := reg.parties[code := s.game]), s.events)
  }

  /** The question timer of party `code` firing while a question is current:
      the registry is unchanged and the room hears one result for the
      current question, with a line per player. */
  function QuestionTimeout(bank: seq<QuizItem>, reg: Registry, code: Code): (r: Outcome)
    requires Invariant(bank, reg)
    requires code in reg.parties ==> reg.parties[code].index < |bank|
    ensures r.reg == reg
    ensures code !in reg.parties ==> r.events == []
    ensures code in reg.parties ==>
      && |r.events| == 1 && r.events[0].target == ToRoom(code)
      && r.events[0].msg.QuestionResult?
      && r.events[0].msg.resultIndex == reg.parties[code].index + 1
      && r.events[0].msg.correctAnswer == bank[reg.parties[code].index].correctAnswer
      && |r.events[0].msg.results| == |reg.parties[code].players|
      && r.events == ProcessAnswers(bank, reg.parties[code]).events
    ensures Invariant(bank, r.reg)
  {
    if code !in reg.parties then Outcome(reg, [])
    else Outcome(reg, ProcessAnswers(bank, reg.parties[code]).events)
  }

  /** The result delay of party `code` elapsing: that party alone moves on
      by one question, keeping its players and scores, and the room hears
      the next question or, after the last, the end of the game. */
  function ResultDelayDone(bank: seq<QuizItem>, reg: Registry, code: Code, now: int): (r: Outcome)
    requires Invariant(bank, reg)
    ensures r.reg.players == reg.players && r.reg.parties.Keys == reg.parties.Keys
    ensures forall c :: c in reg.parties && c != code ==> r.reg.parties[c] == reg.parties[c]
    ensures code !in reg.parties ==> r.events == []
    ensures code in reg.parties ==>
      var g := reg.parties[code];
      var g' := r.reg.parties[code];
      && g'.index == g.index + 1 && g'.players == g.players && g'.scores == g.scores
      && (g.index + 1 < |bank| ==>
           g' == g.(index := g.index + 1, answers := map[], startTime := now)
           && g'.state == g.state && r.events == [Event(ToRoom(code), Question(g.index + 2, |bank|, TimeLimitMs))])
      && (g.index + 1 >= |bank| ==>
           g'.state == Finished && |r.events| == 1 && r.events[0].msg.GameEnd?
           && g' == g.(index := g.index + 1, state := Finished)
           && r.events == EndGame(g.(index := g.index + 1)).events)
    ensures Invariant(bank, r.reg)
  {
    if code !in reg.parties then Outcome(reg, [])
    else
      var s := AdvanceAfterResult(bank, reg.parties[code], now);
      Outcome(reg.(parties := reg.parties[code := s.game]), s.events)
  }

  lemma CreatePartyKeepsInvariant(bank: seq<QuizItem>, reg: Registry, socket: PlayerId, name: string, code: Code)
    requires Invariant(bank, reg) && IsPartyCode(code) && code !in reg.parties
    ensures Invariant(bank, CreateParty(reg, socket, name, code).reg)
  {
    var r := CreateParty(reg, socket, name, code).reg;
    assert socket in IdSet(r.parties[code].players) by {
      assert r.parties[code].players[0].id == socket;
    }
  }

  lemma JoinPartyKeepsInvariant(bank: seq<QuizItem>, reg: Registry, socket: PlayerId, rawCode: string, name: string)
    requires Invariant(bank, reg)
    ensures Invariant(bank, JoinParty(reg, socket, rawCode, name).reg)
  {
    var code := ToUpper(rawCode);
    if code in reg.parties && |reg.parties[code].players| < Capacity {
      var r := JoinParty(reg, socket, rawCode, name).reg;
      var g := reg.parties[code];
      assert LiveParty(bank, r, code);
      forall s | s in r.players
        ensures r.players[s].partyId in r.parties && s in IdSet(r.parties[r.players[s].partyId].players)
      {
        if s != socket && reg.players[s].partyId == code {
          assert IdSet(g.players) <= IdSet(r.parties[code].players);
        }
      }
    }
  }

  lemma PlayerReadyKeepsInvariant(bank: seq<QuizItem>, reg: Registry, socket: PlayerId)
    requires Invariant(bank, reg)
    ensures Invariant(bank, PlayerReady(reg, socket).reg)
  {
  }

  lemma DisconnectKeepsInvariant(bank: seq<QuizItem>, reg: Registry, socket: PlayerId)
    requires Invariant(bank, reg)
    ensures Invariant(bank, Disconnect(reg, socket).reg)
  {
  }

  /** One of two players leaving a waiting party leaves the other alone in
      it, still waiting and no longer able to start. */
  lemma LeavingPartyOfTwo(bank: seq<QuizItem>, reg: Registry, socket: PlayerId)
    requires Invariant(bank, reg) && socket in reg.players
    requires |reg.parties[reg.players[socket].partyId].players| == 2
    ensures var code := reg.players[socket].partyId;
      var r := Disconnect(reg, socket).reg;
      && code in r.parties
      && r.parties[code].state == reg.parties[code].state
      && |r.parties[code].players| == 1
      && !IsReady(r.parties[code])
  {
  }

  /** A party code typed in lower case joins exactly as its upper-case
      spelling does, and is always found. */
  lemma JoinIgnoresCase(bank: seq<QuizItem>, reg: Registry, socket: PlayerId, code: Code, name: string)
    requires Invariant(bank, reg) && code in reg.parties
    ensures JoinParty(reg, socket, ToLower(code), name) == JoinParty(reg, socket, code, name)
    ensures JoinParty(reg, socket, code, name).events[0].msg != Error(PartyNotFound)
  {
    PartyCodeCaseRoundTrip(code);
  }

  /** Everything that can happen to the registry: a socket event or a timer
      callback. The JavaScript event loop runs them one at a time. */
  datatype Action =
    | Create(creator: PlayerId, creatorName: string, newCode: Code)
    | Join(joiner: PlayerId, typedCode: string, joinerName: string)
    | Ready(readySocket: PlayerId)
    | Submit(answerer: PlayerId, answerIndex: int, answeredAt: int)
    | Leave(leaver: PlayerId)
    | Countdown(startCode: Code, startedAt: int)
    | Timeout(timeoutCode: Code)
    | ResultDelay(delayCode: Code, advancedAt: int)

  /** What the model assumes of an action: a created code is fresh, and a
      question timer only fires while its party has a current question. */
  predicate Enabled(bank: seq<QuizItem>, reg: Registry, a: Action) {
    match a
    case Create(_, _, code) => IsPartyCode(code) && code !in reg.parties
    case Timeout(code) => code in reg.parties ==> reg.parties[code].index < |bank|
    case _ => true
  }

  function Apply(bank: seq<QuizItem>, reg: Registry, a: Action): (r: Outcome)
    requires Invariant(bank, reg) && Enabled(bank, reg, a)
    ensures Invariant(bank, r.reg)
  {
    match a
    case Create(s, n, code) =>
      CreatePartyKeepsInvariant(bank, reg, s, n, code);
      CreateParty(reg, s, n, code)
    case Join(s, code, n) =>
      JoinPartyKeepsInvariant(bank, reg, s, code, n);
      JoinParty(reg, s, code, n)
    case Ready(s) =>
      PlayerReadyKeepsInvariant(bank, reg, s);
      PlayerReady(reg, s)
    case Submit(s, ans, now) => SubmitAnswer(bank, reg, s, ans, now)
    case Leave(s) =>
      DisconnectKeepsInvariant(bank, reg, s);
      Disconnect(reg, s)
    case Countdown(code, now) => CountdownDone(bank, reg, code, now)
    case Timeout(code) => QuestionTimeout(bank, reg, code)
    case ResultDelay(code, now) => ResultDelayDone(bank, reg, code, now)
  }

  /** Actions the model never refuses: every one except creating a party
      (whose code must be fresh) and the question timer (which needs a
      current question). */
  predicate AlwaysEnabled(a: Action) {
    !a.Create? && !a.Timeout?
  }

  /** Runs the actions in order, collecting what they emit; `None` when an
      action is not enabled where it occurs. Every registry so reached from
      a sound one is sound: each back-reference names a live party holding
      that socket, and no live party is empty or holds more than two. A run
      of joins, ready signals, answers, departures, countdowns and result
      delays always completes. */
  function Run(bank: seq<QuizItem>, reg: Registry, acts: seq<Action>): (r: Option<Outcome>)
    requires Invariant(bank, reg)
    ensures r.Some? ==> Invariant(bank, r.value.reg)
    ensures (forall i :: 0 <= i < |acts| ==> AlwaysEnabled(acts[i])) ==> r.Some?
    decreases |acts|
  {
    if |acts| == 0 then Some(Outcome(reg, []))
    else if !Enabled(bank, reg, acts[0]) then None
    else
      var first := Apply(bank, reg, acts[0]);
      match Run(bank, first.reg, acts[1..])
      case None => None
      case Some(rest) => Some(Outcome(rest.reg, first.events + rest.events))
  }
}

=== FILE: scoring.dfy ===
/** Integer rules of the game: the points a correct answer earns, and the
    winner/tie loop run when the game ends. */
module Scoring {
  import opened Base

  /** Flat points for any correct answer. */
  const BasePoints := 10

  /** Largest speed bonus, earned within the first second. */
  const MaxBonus := 15

  /** Milliseconds a question stays open. */
  const TimeLimitMs := 15000

  /** Points a correct answer earns `elapsed` ms after its question was sent:
      the base plus fifteen minus the whole seconds elapsed, the bonus
      floored at zero. Dafny's `/` by a positive divisor rounds toward
      negative infinity, as `Math.floor` of the quotient does. */
  function SpeedPoints(elapsed: int): (p: int)
    ensures p >= BasePoints
    ensures elapsed >= 0 ==> p <= BasePoints + MaxBonus
    ensures p == BasePoints <==> elapsed >= TimeLimitMs
    ensures p == BasePoints + MaxBonus <==> 0 <= elapsed < 1000
  {
    BasePoints + Max(0, MaxBonus - elapsed / 1000)
  }

  /** Reference reading of the rule: an answer given during whole second `s`
      earns the base plus `15 - s`, never less than the base. */
  lemma SpeedPointsPerSecond(elapsed: int, s: int)
    requires s * 1000 <= elapsed < s * 1000 + 1000
    ensures SpeedPoints(elapsed) == BasePoints + Max(0, MaxBonus - s)
  {
    assert elapsed / 1000 == s;
  }

  /** Answering later never earns more. */
  lemma SpeedPointsNonIncreasing(e1: int, e2: int)
    requires e1 <= e2
    ensures SpeedPoints(e2) <= SpeedPoints(e1)
  {
    assert e1 / 1000 <= e2 / 1000;
  }

  /** One score of the `scores` map, in iteration order. */
  datatype Entry = Entry(id: PlayerId, score: int)

  /** The loop variables `winner`, `highestScore` and `tie` of `endGame`. */
  datatype Tally = Tally(winner: Option<PlayerId>, highest: int, tie: bool)

  const InitialTally := Tally(None, -1, false)

  /** One iteration of the winner loop. */
  function Consider(t: Tally, e: Entry): Tally {
    if e.score > t.highest then Tally(Some(e.id), e.score, false)
    else if e.score == t.highest then t.(tie := true)
    else t
  }

  /** The loop variables after visiting every entry of `es` in order. */
  function ScanScores(es: seq<Entry>): Tally {
    if |es| == 0 then InitialTally
    else Consider(ScanScores(es[..|es| - 1]), es[|es| - 1])
  }

  /** The highest score among the entries. */
  function TopScore(es: seq<Entry>): (m: int)
    requires |es| > 0
    ensures forall i :: 0 <= i < |es| ==> es[i].score <= m
    ensures exists i :: 0 <= i < |es| && es[i].score == m
  {
    if |es| == 1 then es[0].score
    else
      var m' := TopScore(es[..|es| - 1]);
      var k :| 0 <= k < |es| - 1 && es[..|es| - 1][k].score == m';
      assert es[k].score == m';
      Max(m', es[|es| - 1].score)
  }

  /** How many entries hold score `s`. */
  function CountScore(es: seq<Entry>, s: int): nat {
    if |es| == 0 then 0
    else CountScore(es[..|es| - 1], s) + (if es[|es| - 1].score == s then 1 else 0)
  }

  /** The id of the first entry holding score `s`. */
  function FirstWith(es: seq<Entry>, s: int): Option<PlayerId> {
    if |es| == 0 then None
    else
      match FirstWith(es[..|es| - 1], s)
      case Some(w) => Some(w)
      case None => if es[|es| - 1].score == s then Some(es[|es| - 1].id) else None
  }

  lemma {:induction false} CountAboveTop(es: seq<Entry>, s: int)
    requires |es| > 0 && s > TopScore(es)
    ensures CountScore(es, s) == 0 && FirstWith(es, s) == None
  {
    if |es| > 1 {
      CountAboveTop(es[..|es| - 1], s);
    }
  }

  lemma {:induction false} TopIsHeld(es: seq<Entry>)
    requires |es| > 0
    ensures CountScore(es, TopScore(es)) >= 1
    ensures FirstWith(es, TopScore(es)).Some?
  {
    if |es| > 1 {
      var p := es[..|es| - 1];
      if TopScore(p) >= es[|es| - 1].score {
        TopIsHeld(p);
      } else {
        CountAboveTop(p, es[|es| - 1].score);
      }
    }
  }

  /** The winner loop computes the top score, flags a tie exactly when the
      top score is held more than once, and names its first holder. */
  lemma {:induction false} ScanScoresComputesTop(es: seq<Entry>)
    requires forall i :: 0 <= i < |es| ==> es[i].score >= 0
    ensures |es| == 0 ==> ScanScores(es) == InitialTally
    ensures |es| > 0 ==>
      && ScanScores(es).highest == TopScore(es)
      && (ScanScores(es).tie <==> CountScore(es, TopScore(es)) >= 2)
      && ScanScores(es).winner == FirstWith(es, TopScore(es))
  {
    if |es| > 1 {
      var p := es[..|es| - 1];
      var e := es[|es| - 1];
      ScanScoresComputesTop(p);
      TopIsHeld(p);
      if e.score > TopScore(p) {
        CountAboveTop(p, e.score);
      }
    }
  }

  lemma {:induction false} CountScoreHeld(es: seq<Entry>, s: int)
    ensures CountScore(es, s) >= 1 <==> exists i :: 0 <= i < |es| && es[i].score == s
  {
    if |es| > 0 {
      var p := es[..|es| - 1];
      CountScoreHeld(p, s);
      if CountScore(p, s) >= 1 {
        var i :| 0 <= i < |p| && p[i].score == s;
        assert es[i].score == s;
      }
      if exists i :: 0 <= i < |es| && es[i].score == s {
        var i :| 0 <= i < |es| && es[i].score == s;
        if i < |p| {
          assert p[i].score == s;
        }
      }
    }
  }

  lemma {:induction false} CountScoreShared(es: seq<Entry>, s: int)
    ensures CountScore(es, s) >= 2 <==>
      exists i, j :: 0 <= i < j < |es| && es[i].score == s && es[j].score == s
  {
    if |es| > 0 {
      var p := es[..|es| - 1];
      var n := |es| - 1;
      CountScoreShared(p, s);
      CountScoreHeld(p, s);
      if CountScore(es, s) >= 2 {
        if CountScore(p, s) >= 2 {
          var i, j :| 0 <= i < j < |p| && p[i].score == s && p[j].score == s;
          assert es[i].score == s && es[j].score == s;
        } else {
          var i :| 0 <= i < |p| && p[i].score == s;
          assert es[i].score == s && es[n].score == s;
        }
      }
      if exists i, j :: 0 <= i < j < |es| && es[i].score == s && es[j].score == s {
        var i, j :| 0 <= i < j < |es| && es[i].score == s && es[j].score == s;
        assert p[i].score == s;
        if j < n {
          assert p[j].score == s;
        }
      }
    }
  }

  lemma {:induction false} FirstWithHolds(es: seq<Entry>, s: int, w: PlayerId)
    requires FirstWith(es, s) == Some(w)
    ensures exists i :: 0 <= i < |es| && es[i].id == w && es[i].score == s
  {
    var p := es[..|es| - 1];
    if FirstWith(p, s).Some? {
      FirstWithHolds(p, s, w);
      var i :| 0 <= i < |p| && p[i].id == w && p[i].score == s;
      assert es[i] == p[i];
    } else {
      assert es[|es| - 1].id == w;
    }
  }

  /** The entries reached by the loop, and its outcome as `gameEnd` reports
      it: a tie exactly when two entries share the highest score; otherwise
      the single entry holding it; neither with no entries. */
  lemma {:induction false} WinnerRule(es: seq<Entry>)
    requires forall i :: 0 <= i < |es| ==> es[i].score >= 0
    ensures |es| == 0 ==> ScanScores(es).winner == None && !ScanScores(es).tie
    ensures |es| > 0 ==>
      (ScanScores(es).tie <==>
        exists i, j :: 0 <= i < j < |es| && es[i].score == TopScore(es) && es[j].score == TopScore(es))
    ensures |es| > 0 && !ScanScores(es).tie ==>
      exists i :: 0 <= i < |es| && ScanScores(es).winner == Some(es[i].id)
        && (forall k :: 0 <= k < |es| && k != i ==> es[k].score < es[i].score)
  {
    ScanScoresComputesTop(es);
    if |es| > 0 {
      var top := TopScore(es);
      CountScoreShared(es, top);
      if !ScanScores(es).tie {
        TopIsHeld(es);
        var w := FirstWith(es, top).value;
        FirstWithHolds(es, top, w);
        var i :| 0 <= i < |es| && es[i].id == w && es[i].score == top;
        forall k | 0 <= k < |es| && k != i
          ensures es[k].score < es[i].score
        {
        }
      }
    }
  }
}

=== FILE: witnesses.dfy ===
/** Runs of the engine. Some show behaviours the code has that a reader
    might not expect (no state guard on starting, no capacity check in the
    game itself, repeated answers, rounds a departure does not resolve,
    repeated start announcements); others are worked examples of the rules. */
module Witnesses {
  import opened Base
  import opened Events
  import opened Scoring
  import opened Games
  import opened Parties

  /** A game of two players, `a` then `b`. */
  predicate TwoPlayers(g: Game, a: PlayerId, b: PlayerId) {
    && WellFormed(g)
    && |g.players| == 2 && g.players[0].id == a && g.players[1].id == b
  }

  /** A clock that goes backwards makes the elapsed time negative, and the
      speed bonus then exceeds its usual top of 15. */
  lemma NegativeElapsedExceedsBonusCap()
    ensures SpeedPoints(-1000) == 26
  {
  }

  /** Two players ending on 10 and 10 tie, and nobody wins. */
  lemma TiedScoresHaveNoWinner(g: Game, a: PlayerId, b: PlayerId)
    requires TwoPlayers(g, a, b) && g.scores[a] == 10 && g.scores[b] == 10
    ensures EndGame(g).events[0].msg.tie
    ensures EndGame(g).events[0].msg.winner == None
  {
    var es := ScoreEntries(g);
    assert es[0].score == 10 && es[1].score == 10;
    assert TopScore(es) == 10;
  }

  /** Two players ending on 20 and 10: the first wins. */
  lemma HigherScoreWins(g: Game, a: PlayerId, b: PlayerId)
    requires TwoPlayers(g, a, b) && g.scores[a] == 20 && g.scores[b] == 10
    ensures !EndGame(g).events[0].msg.tie
    ensures EndGame(g).events[0].msg.winner == Some(a)
    ensures EndGame(g).events[0].msg.winnerName == Some(g.players[0].name)
  {
    var es := ScoreEntries(g);
    assert es[0].score == 20 && es[1].score == 10;
    assert TopScore(es) == 20;
  }

  /** The game object admits a third player: only `joinParty` checks the
      size. */
  lemma AddPlayerHasNoCapacityCheck(g: Game, a: PlayerId, b: PlayerId, c: PlayerId)
    requires TwoPlayers(g, a, b) && c != a && c != b
    ensures |AddPlayer(g, c, "cy").players| == 3
  {
    assert c !in IdSet(g.players);
  }

  /** `startGame` restarts a finished game: back to question 1, scores
      wiped. */
  lemma StartGameHasNoStateGuard(g: Game, now: int)
    requires WellFormed(g) && g.state == Finished && |g.players| > 0
    ensures StartGame(QuizBank, g, now).game.state == Playing
    ensures StartGame(QuizBank, g, now).game.index == 0
    ensures StartGame(QuizBank, g, now).game.scores[g.players[0].id] == 0
    ensures forall id :: id in StartGame(QuizBank, g, now).game.scores ==> StartGame(QuizBank, g, now).game.scores[id] == 0
  {
    assert g.players[0].id in IdSet(g.players);
  }

  /** A round of the built-in bank's first question (correct option 2),
      sent at time 0, with nobody's answer in yet. */
  predicate FreshFirstRound(g: Game, a: PlayerId, b: PlayerId) {
    && TwoPlayers(g, a, b)
    && g.state == Playing && g.index == 0 && g.startTime == 0
    && g.answers == map[] && g.scores[a] == 0
  }

  /** A first-question round of two players `a` and `b` in which `b` has
      answered. */
  predicate AnsweredByB(g: Game, a: PlayerId, b: PlayerId) {
    && TwoPlayers(g, a, b)
    && Games.Valid(QuizBank, g)
    && g.state == Playing && g.index == 0 && g.startTime == 0
    && b in g.answers
  }

  /** A wrong answer half a second in is recorded as such, scores nothing,
      and does not resolve the round while the other player has not
      answered. */
  lemma WrongAnswerFirst(g: Game, a: PlayerId, b: PlayerId)
    requires FreshFirstRound(g, a, b)
    ensures var s := Games.SubmitAnswer(QuizBank, g, b, 0, 500);
      && s.events == [] && AnsweredByB(s.game, a, b)
      && s.game.answers[b] == Answer(0, false, 500)
      && s.game.scores[b] == g.scores[b] && s.game.scores[a] == 0
  {
    assert b in IdSet(g.players) by { assert g.players[1].id == b; }
    DistinctIdCount(g.players);
  }

  /** Recording a correct answer from `a` within the first second, with
      `b`'s answer in: both have now answered, and `a` gains 25. */
  lemma FastCorrectAnswerRecorded(g: Game, a: PlayerId, b: PlayerId, now: int)
    requires AnsweredByB(g, a, b) && 0 <= now < 1000
    ensures a in IdSet(g.players)
    ensures var g' := RecordAnswer(QuizBank, g, a, 2, now);
      |g'.answers| == |g.players| && g'.scores[a] == g.scores[a] + 25 && AnsweredByB(g', a, b)
  {
    assert a in IdSet(g.players) && b in IdSet(g.players) by {
      assert g.players[0].id == a && g.players[1].id == b;
    }
    var g' := RecordAnswer(QuizBank, g, a, 2, now);
    assert |g'.answers| == |g.players| by {
      DistinctIdCount(g.players);
      assert g'.answers.Keys == {a, b};
    }
    assert g'.scores[a] == g.scores[a] + 25 by {
      assert SpeedPoints(now - g.startTime) == BasePoints + MaxBonus;
    }
  }

  /** A correct answer within the first second earns 25 and, with the other
      player's answer in, resolves the round, however often it is given. */
  lemma FastCorrectAnswerResolves(g: Game, a: PlayerId, b: PlayerId, now: int)
    requires AnsweredByB(g, a, b) && 0 <= now < 1000
    ensures var s := Games.SubmitAnswer(QuizBank, g, a, 2, now);
      s.events != [] && AnsweredByB(s.game, a, b) && s.game.scores[a] == g.scores[a] + 25
  {
    FastCorrectAnswerRecorded(g, a, b, now);
    var g' := RecordAnswer(QuizBank, g, a, 2, now);
    assert Games.SubmitAnswer(QuizBank, g, a, 2, now) == ProcessAnswers(QuizBank, g');
  }

  /** Answering the same question correctly twice scores twice, and once
      both players have answered, every further answer resolves the round
      again. */
  lemma RepeatedAnswersScoreAndResolveAgain(g: Game, a: PlayerId, b: PlayerId)
    requires FreshFirstRound(g, a, b)
    ensures var s1 := Games.SubmitAnswer(QuizBank, g, b, 0, 500);
      var s2 := Games.SubmitAnswer(QuizBank, s1.game, a, 2, 500);
      var s3 := Games.SubmitAnswer(QuizBank, s2.game, a, 2, 700);
      && s1.events == []
      && s2.game.scores[a] == 25
      && s3.game.scores[a] == 50
      && s2.events != [] && s3.events != []
  {
    WrongAnswerFirst(g, a, b);
    var s1 := Games.SubmitAnswer(QuizBank, g, b, 0, 500);
    FastCorrectAnswerResolves(s1.game, a, b, 500);
    var s2 := Games.SubmitAnswer(QuizBank, s1.game, a, 2, 500);
    FastCorrectAnswerResolves(s2.game, a, b, 700);
  }

  /** After one player answers and the other leaves, every remaining player
      has answered, yet no result is sent: the round waits for its timer. */
  lemma DepartureDoesNotResolveRound(g: Game, a: PlayerId, b: PlayerId)
    requires FreshFirstRound(g, a, b)
    ensures var s := Games.SubmitAnswer(QuizBank, g, a, 2, 500);
      var g' := RemovePlayer(s.game, b);
      s.events == [] && |g'.answers| == |g'.players| == 1
  {
    assert a in IdSet(g.players) && b in IdSet(g.players) by {
      assert g.players[0].id == a && g.players[1].id == b;
    }
    var g1 := RecordAnswer(QuizBank, g, a, 2, 500);
    assert g1.answers.Keys == {a};
    assert |g1.answers| < |g.players| by {
      DistinctIdCount(g.players);
    }
    assert Games.SubmitAnswer(QuizBank, g, a, 2, 500) == Step(g1, []);
    assert RemovePlayer(g1, b).answers.Keys == {a};
  }

  /** Once a party is ready, every further ready signal announces a start
      again, in whatever state the game is. */
  lemma EveryReadyCheckAnnouncesStart(reg: Registry, s: PlayerId)
    requires s in reg.players && reg.players[s].partyId in reg.parties
    requires IsReady(reg.parties[reg.players[s].partyId])
    ensures PlayerReady(reg, s).events == [Event(ToRoom(reg.players[s].partyId), GameStarting(StartCountdown))]
    ensures PlayerReady(PlayerReady(reg, s).reg, s).events == PlayerReady(reg, s).events
  {
    var code := reg.players[s].partyId;
    var r1 := PlayerReady(reg, s).reg;
    assert IsReady(r1.parties[code]);
    assert IsReady(PlayerReady(r1, s).reg.parties[code]);
  }

  /** Once every player has answered, a further answer from any of them
      resolves the round again. */
  lemma FullRoundResolvesAgain(bank: seq<QuizItem>, g: Game, id: PlayerId, answerIndex: int, now: int)
    requires Games.Valid(bank, g) && g.state == Playing
    requires id in g.answers && |g.answers| == |g.players|
    ensures id in IdSet(g.players)
    ensures Games.SubmitAnswer(bank, g, id, answerIndex, now).events != []
  {
    assert id in IdSet(g.players);
    var g1 := RecordAnswer(bank, g, id, answerIndex, now);
    assert |g1.answers| == |g.players| by {
      assert g1.answers.Keys == g.answers.Keys;
    }
    assert Games.SubmitAnswer(bank, g, id, answerIndex, now) == ProcessAnswers(bank, g1);
  }

  /** Once every player has answered the second-to-last question, one more
      answer resolves it a second time, and so two result delays run: the
      first asks the last question and arms its 15 s timer, the second ends
      the game before any result for that last question is sent. */
  lemma RepeatedAnswerSkipsLastResult(bank: seq<QuizItem>, g: Game, id: PlayerId, answerIndex: int, now: int, t1: int, t2: int)
    requires Games.Valid(bank, g) && g.state == Playing
    requires |bank| >= 2 && g.index == |bank| - 2
    requires id in g.answers && |g.answers| == |g.players|
    ensures var s := Games.SubmitAnswer(bank, g, id, answerIndex, now);
      var d1 := AdvanceAfterResult(bank, s.game, t1);
      var d2 := AdvanceAfterResult(bank, d1.game, t2);
      && s.events != []
      && d1.events == [Event(ToRoom(g.partyId), Question(|bank|, |bank|, TimeLimitMs))]
      && d2.game.state == Finished && d2.game.index == |bank|
      && |d2.events| == 1 && d2.events[0].msg.GameEnd?
  {
    FullRoundResolvesAgain(bank, g, id, answerIndex, now);
  }

  /** The registry side of the run above: the result delay that ends the
      game leaves the party live at index `|bank|`, so the timer its last
      question armed then finds no current question, the one case the model
      of the question timer excludes. */
  lemma StrandedTimerFindsNoQuestion(bank: seq<QuizItem>, reg: Registry, code: Code, t: int)
    requires Invariant(bank, reg) && code in reg.parties
    requires reg.parties[code].index + 1 == |bank|
    ensures var r := ResultDelayDone(bank, reg, code, t);
      && code in r.reg.parties
      && r.reg.parties[code].state == Finished
      && r.reg.parties[code].index == |bank|
      && !Enabled(bank, r.reg, Timeout(code))
  {
  }

  /** A socket that creates a second party leaves itself in the first; after
      it disconnects, the first party lives on with that player although no
      back-reference names it. */
  lemma SecondCreateOrphansFirstParty(a: PlayerId, c1: Code, c2: Code)
    requires IsPartyCode(c1) && IsPartyCode(c2) && c1 != c2
    ensures var r1 := CreateParty(EmptyRegistry, a, "ann", c1).reg;
      var r2 := CreateParty(r1, a, "ann", c2).reg;
      var r3 := Disconnect(r2, a).reg;
      c1 in r3.parties && a in IdSet(r3.parties[c1].players) && a !in r3.players
  {
    var r1 := CreateParty(EmptyRegistry, a, "ann", c1).reg;
    var r2 := CreateParty(r1, a, "ann", c2).reg;
    assert r2.parties[c1].players[0].id == a;
  }
}
